=== FILE: README.md ===
# Audio normalizer: the volume decision rules

A Dafny model of the decision logic in the Android audio normalizer. The app reads
a peak-RMS loudness value in millibels from a `Visualizer` on the output mix. It then
raises the music stream's volume by one step, lowers it by one step, or leaves it alone.
The repository holds four variants of that rule:

- the loop of the background service (`AudioNormalizerService`);
- the two-sample worker (`workers/NormalizerWorker`), which compares a reading with the one taken 500 ms before;
- the self-comparing worker (`data/AudioNormalizerWorker`), which compares a reading with itself;
- the prototype screen (`MainActivity`), which raises whenever the RMS is below -7000.

The service and the two workers are pure functions from the reading(s) and the music
stream (current, minimum and maximum volume) to an `Action` (`Raise`, `Lower`, `Hold`).
The prototype screen (`RecordScreen.Compose`) takes no stream: its inputs are the
recording flag, the measurement and whether an audio manager is available, and it yields
the new measurement status together with an action. `Volume.Apply`
turns an action into a one-step change of an integer volume. Runs over sequences of
readings model the repeated loop or the repeated work. The view model's mapping from
work state to UI state and its `AudioLevel` enum are modelled as well. So are the
prototype screen's status texts and record button.

Readings are Kotlin `Int`s. The `± 1000` margins of the workers are computed with
32-bit wrap-around (`Loudness.Plus`, `Loudness.Minus`). This makes the self-comparing
worker's behaviour exact over all of `Int`:
- it raises for every reading in `[MIN + 1000, MAX - 1000]` (when below the maximum volume);
- it lowers only for readings above `MAX - 1000`, where `currentRms + 1000` wraps;
- it holds for readings below `MIN + 1000`, where `currentRms - 1000` wraps.

On the visualizer's documented range `[-9600, 0]` none of this wraps.

`MIN_RMS` is used by the service but defined nowhere in the repository, so it is a
parameter (`minRms`) of `NormalizerService.Decide`. The view model passes
`audioLevel.textDescription` to `normalizerRepository.normalizeAudio`. The repository
interfaces in this snapshot declare `normalizeAudio()` without a parameter, so the model
stops at the argument the view model computes (`NormalizeAudioArgument`).

## Model

| member | source | states |
|---|---|---|
| Loudness.Plus | app/src/main/java/com/example/audionormalizer/workers/NormalizerWorker.kt:47 | Kotlin `Int` addition: the result is congruent to the true sum modulo 2^32 and equals it when the sum fits |
| Loudness.Minus | app/src/main/java/com/example/audionormalizer/workers/NormalizerWorker.kt:47 | Kotlin `Int` subtraction, with the same congruence and exactness |
| Loudness.MarginRoundTrip | app/src/main/java/com/example/audionormalizer/data/AudioNormalizerWorker.kt:37-38 | adding then removing 1000 is the identity when nothing wraps; near `MAX`, `x + 1000` wraps below `x`, and near `MIN`, `x - 1000` wraps above `x` |
| Loudness.DocumentedIsOffsettable | app/src/main/java/com/example/audionormalizer/data/AudioNormalizerWorker.kt:37 | every reading in the documented range `[-9600, 0]` can have 1000 added or subtracted without wrapping |
| Volume.Apply | app/src/main/java/com/example/audionormalizer/AudioNormalizerService.kt:39-53 | an adjustment moves the volume by at most one, up exactly for a raise and down exactly for a lower, and leaves the bounds alone |
| Volume.RaiseLowerInverse | app/src/main/java/com/example/audionormalizer/AudioNormalizerService.kt:39-53 | a raise and a lower undo each other |
| Volume.GuardedStaysInRange | app/src/main/java/com/example/audionormalizer/AudioNormalizerService.kt:36-53 | an adjustment behind the "below maximum" and "above minimum + 1" guards keeps the volume in `[min, max]`, and a lower never goes below `min + 1` |
| NormalizerService.Decide | app/src/main/java/com/example/audionormalizer/AudioNormalizerService.kt:31-56 | raise exactly when a manager is present, `-9600 < rms < MIN_RMS` and volume < max; lower exactly when a manager is present, `rms >= MIN_RMS`, `rms > -7000` and volume > min + 1; a reading at or below -9600, one in `[MIN_RMS, -7000]`, or no manager gives hold; the action always respects the volume guards |
| NormalizerService.RunStaysInRange | app/src/main/java/com/example/audionormalizer/AudioNormalizerService.kt:30-60 | over any number of loop iterations a volume starting in `[min, max]` stays there, and one starting at `min + 1` or above stays at or above `min + 1` |
| NormalizerService.RunSharedStaysInRange | app/src/main/java/com/example/audionormalizer/AudioNormalizerService.kt:30-60 | when something else may set the volume between iterations, as long as it keeps it within the bounds, the loop keeps it within `[min, max]` too, since it rereads the volume on each iteration |
| NormalizerService.RunWithoutManagerHolds | app/src/main/java/com/example/audionormalizer/AudioNormalizerService.kt:31 | while the audio manager is null the loop never changes the volume |
| NormalizerService.SilenceKeepsVolume | app/src/main/java/com/example/audionormalizer/AudioNormalizerService.kt:34 | any run of readings at or below the silence floor leaves the volume unchanged |
| NormalizerService.Loop | app/src/main/java/com/example/audionormalizer/AudioNormalizerService.kt:30-60 | the loop ends in range, issues at most one adjustment per reading and none without a manager, and moves the volume by at most the number of adjustments |
| TwoSampleWorker.Decide | app/src/main/java/com/example/audionormalizer/workers/NormalizerWorker.kt:47-69 | when `previousRms ± 1000` does not wrap: raise exactly when `current < previous + 1000`, and `current > -9600` or `current > previous - 1000`, and volume < max; lower exactly when `current >= previous + 1000` and volume > min + 1; hold when `current <= -9600` and `current <= previous - 1000`; a reading within 1000 of the previous one raises even at the silence floor |
| TwoSampleWorker.FloorAfterFloorRaises | app/src/main/java/com/example/audionormalizer/workers/NormalizerWorker.kt:47-57 | two silence-floor readings in a row raise the volume whenever it is below the maximum |
| TwoSampleWorker.RepeatedReadingRaises | app/src/main/java/com/example/audionormalizer/workers/NormalizerWorker.kt:39-57 | two equal readings raise whenever the volume is below the maximum; because the result code of the second measurement is not checked, a failed measurement leaves the first value in place and so raises even for loud audio |
| TwoSampleWorker.DoWork | app/src/main/java/com/example/audionormalizer/workers/NormalizerWorker.kt:39-72 | one run returns success whatever the readings, carries out exactly `Decide`'s action (up exactly on a raise, down exactly on a lower, by one step), and keeps a volume in `[min, max]` there |
| TwoSampleWorker.RunStaysInRange | app/src/main/java/com/example/audionormalizer/workers/NormalizerWorker.kt:47-72 | any number of runs keeps a volume that starts in `[min, max]` there |
| SelfComparingWorker.InnerGuard | app/src/main/java/com/example/audionormalizer/data/AudioNormalizerWorker.kt:38 | `currentRms < currentRms + 1000` holds exactly when the addition does not wrap, so always on the documented range |
| SelfComparingWorker.OuterGuard | app/src/main/java/com/example/audionormalizer/data/AudioNormalizerWorker.kt:37 | the outer test holds exactly when `currentRms >= MIN + 1000`, so always when neither offset wraps |
| SelfComparingWorker.Decide | app/src/main/java/com/example/audionormalizer/data/AudioNormalizerWorker.kt:37-59 | raise exactly when the reading can be offset without wrapping and volume < max; lower only for readings above `MAX - 1000`, so never on the documented range, where raise happens exactly when volume < max |
| SelfComparingWorker.DoWork | app/src/main/java/com/example/audionormalizer/data/AudioNormalizerWorker.kt:35-62 | one run returns success whatever the reading, carries out exactly `Decide`'s action (up exactly on a raise, down exactly on a lower, by one step), and keeps the volume in `[min, max]` |
| SelfComparingWorker.RunStaysInRange | app/src/main/java/com/example/audionormalizer/data/AudioNormalizerWorker.kt:35-62 | over any number of runs on any Kotlin `Int` readings, including those that reach the lower branch, a volume that starts in `[min, max]` stays there |
| SelfComparingWorker.RunClimbsToMax | app/src/main/java/com/example/audionormalizer/data/AudioNormalizerWorker.kt:37-62 | repeated runs on documented readings raise the volume one step per run until it reaches the maximum, then leave it there |
| RecordScreen.Compose | app/src/main/java/com/example/audionormalizer/MainActivity.kt:101-123 | a raise is issued exactly when recording, the measurement returned `SUCCESS`, `rms < -7000` and an audio manager is available; no lower is ever issued; the status is `NotRecording` exactly when not recording, `Error` exactly when the measurement failed, else the measured peak and RMS |
| RecordScreen.NotRecordingIgnoresMeasurement | app/src/main/java/com/example/audionormalizer/MainActivity.kt:120-123 | when not recording the outcome is `NotRecording` with no adjustment, whatever the visualizer would report |
| RecordScreen.RaiseIgnoresMaximum | app/src/main/java/com/example/audionormalizer/MainActivity.kt:110-115 | the raise does not look at the volume: at the maximum volume the screen still issues a raise, where the service and the self-comparing worker hold and the two-sample worker does not raise |
| RecordScreen.TwoSampleLowersWhereScreenRaises | app/src/main/java/com/example/audionormalizer/workers/NormalizerWorker.kt:47-67 | on a reading of -7500 at the maximum volume the screen raises, while the two-sample worker, after a previous reading of -9000, lowers |
| RecordScreen.PeakText | app/src/main/java/com/example/audionormalizer/MainActivity.kt:82-89 | "Not recording", "Error, try again.", or the canonical decimal text of the peak (optional minus, no leading zero, no "-0") that parses back to it |
| RecordScreen.RmsText | app/src/main/java/com/example/audionormalizer/MainActivity.kt:90-97 | "Not recording", "Error, try again.", or the canonical decimal text of the RMS (optional minus, no leading zero, no "-0") that parses back to it |
| RecordScreen.TextsIdentifyStatus | app/src/main/java/com/example/audionormalizer/MainActivity.kt:82-97 | the two texts shown determine the status, including its peak and RMS |
| RecordScreen.RecordButtonText | app/src/main/java/com/example/audionormalizer/MainActivity.kt:81 | the label is "Stop recording" exactly when recording, and "Record" otherwise |
| RecordScreen.ToggleRecording | app/src/main/java/com/example/audionormalizer/MainActivity.kt:129 | pressing the button flips recording and changes the label |
| Decimal.NatToString | app/src/main/java/com/example/audionormalizer/MainActivity.kt:87 | the rendering of a natural number is a non-empty string of digits with no leading zero |
| Decimal.IntToString | app/src/main/java/com/example/audionormalizer/MainActivity.kt:95 | `Int.toString()`: starts with a minus sign exactly for negative numbers and is in canonical form: digits with no leading zero, and never "-0" |
| Decimal.RoundTrip | app/src/main/java/com/example/audionormalizer/MainActivity.kt:87-95 | parsing the rendering of any integer gives the integer back |
| Decimal.Injective | app/src/main/java/com/example/audionormalizer/MainActivity.kt:87-95 | different integers are rendered as different strings |
| NormalizerViewModel.UiStateOf | app/src/main/java/com/example/audionormalizer/ui/NormalizerViewModel.kt:25-28 | `RUNNING` maps to `Normalizing` whatever the output; `FAILED` with output exactly `{"ERROR": "AUDIO_LEVEL_ERROR"}` maps to `Error`; `ENQUEUED`, `SUCCEEDED`, `BLOCKED`, `CANCELLED` and any other failure map to `Default` |
| NormalizerViewModel.UiStateAfter | app/src/main/java/com/example/audionormalizer/ui/NormalizerViewModel.kt:24-33 | the state flow holds `Default` before any work info arrives; afterwards it is `Normalizing` exactly when the latest info is `RUNNING`, `Error` exactly when the latest is `FAILED` with `{"ERROR": "AUDIO_LEVEL_ERROR"}`, and `Default` otherwise |
| NormalizerViewModel.QuietStatesShowDefault | app/src/main/java/com/example/audionormalizer/ui/NormalizerViewModel.kt:26-32 | if no work info was running or failed, the UI shows `Default` |
| NormalizerViewModel.LevelOf | app/src/main/java/com/example/audionormalizer/ui/NormalizerViewModel.kt:62-64 | a description resolves to a level only if it is that level's text description |
| NormalizerViewModel.AudioLevel.TextDescription | app/src/main/java/com/example/audionormalizer/ui/NormalizerViewModel.kt:62-64 | every level is described by one of the display names "Low", "Medium", "High", "Dynamic" |
| NormalizerViewModel.NormalizeAudioArgument | app/src/main/java/com/example/audionormalizer/ui/NormalizerViewModel.kt:35-37 | the string passed on for a level resolves back to that level |
| NormalizerViewModel.DescriptionsDistinct | app/src/main/java/com/example/audionormalizer/ui/NormalizerViewModel.kt:62-64 | the four levels have pairwise distinct text descriptions |

## Left out

- `Visualizer` and `AudioManager`: platform code. A reading is an `Int` input, and the audio manager's presence is a boolean input. `adjustStreamVolume` with `ADJUST_RAISE`/`ADJUST_LOWER` is assumed to move the volume index by exactly one step. The platform's own clamping at the stream's bounds is not modelled.
- Volume indices and `getStreamMinVolume(…) + 1` are unbounded integers. Android's stream indices are small, so the addition cannot overflow for them.
- TwoSampleWorker.Decide: the exact raise and lower conditions are stated only when `previousRms ± 1000` does not wrap, which covers every documented reading. Outside that range the contract states only the volume guards; the body still computes the wrapped comparisons.
- Outside volume changes (the volume keys, another app) between iterations or runs: `NormalizerService.Run`, `TwoSampleWorker.Run` and `SelfComparingWorker.Run` assume the volume changes only through the modelled adjustments. `SelfComparingWorker.RunClimbsToMax` holds only under that assumption. The source rereads `getStreamVolume` on every iteration. `NormalizerService.RunShared` models such changes for the service loop, and `NormalizerService.RunSharedStaysInRange` shows the bounds still hold.
- The result code of `getMeasurementPeakRms` in the service and the workers: the source ignores it, and a failed measurement leaves the previous `mRms` in place. The model takes any `Int` as the reading, which covers the stale value. `TwoSampleWorker.RepeatedReadingRaises` states what happens when the value is stale.
- `Thread.sleep(500)`, `delay(500)`, the `HandlerThread`/`Looper` hosting, coroutines and `Dispatchers.IO`: timing and concurrency. The service's `while (true)` loop is a run over a finite sequence of readings. The two readings of the two-sample worker are two inputs.
- The spinning of the service loop while the audio manager is null: it reads nothing and adjusts nothing. The model only states that no adjustment happens.
- `visualizer.enabled` toggling, `measurementMode` and `release()`: resource handling with no effect on the decisions.
- Notifications (`makeStatusNotification`), toasts, permission requests and all Compose layout.
- WorkManager enqueueing, cancellation, `Flow`/`StateFlow` plumbing (`stateIn`, `WhileSubscribed`), the repositories, `AppContainer` and the application class. The view model's state is modelled as the value the flow holds after a sequence of work infos.
- `AudioSessionReceiver` and `Constants.kt`: broadcast plumbing and string/ID constants.
- An adaptive running-mean controller, a noise-margin formula or a table from levels to loudness bands: none exists in this code. `AudioLevel` carries display names only.
- The recomposition order of `MainActivity`: the texts are computed from the status held at the start of a composition, and the new status shows on the next one. `PeakText` and `RmsText` take the status as input, and `Compose` yields the next status.

=== FILE: audio_normalizer_worker.dfy ===
/**
 * `data/AudioNormalizerWorker.doWork`: takes one reading and compares it with
 * itself plus and minus 1000. Only 32-bit wrap-around makes those comparisons false.
 */
module SelfComparingWorker {

  import opened Loudness
  import opened Volume
  import opened Work

  /** The inner test `currentRms < currentRms + 1000`. */
  function InnerGuard(currentRms: Int32): (r: bool)
    ensures r <==> currentRms <= MaxInt32 - Margin
    ensures Offsettable(currentRms) ==> r
  {
    currentRms < Plus(currentRms, Margin)
  }

  /** The outer test `(currentRms < currentRms + 1000 && currentRms > -9600) || currentRms > currentRms - 1000`. */
  function OuterGuard(currentRms: Int32): (r: bool)
    ensures r <==> currentRms >= MinInt32 + Margin
    ensures Offsettable(currentRms) ==> r
  {
    (InnerGuard(currentRms) && currentRms > SilenceFloor) || currentRms > Minus(currentRms, Margin)
  }

  /** The decision from the single reading. */
  function Decide(currentRms: Int32, s: MusicStream): (r: Action)
    ensures Guarded(r, s)
    ensures r == Raise <==> Offsettable(currentRms) && s.volume < s.maxVolume
    ensures r == Lower <==> currentRms > MaxInt32 - Margin && s.volume > s.minVolume + 1
    ensures Offsettable(currentRms) ==> r != Lower
    ensures Documented(currentRms) ==> (r == Raise <==> s.volume < s.maxVolume)
  {
    if OuterGuard(currentRms) then
      if InnerGuard(currentRms) then
        if s.volume < s.maxVolume then Raise else Hold
      else
        if s.volume > s.minVolume + 1 then Lower else Hold
    else Hold
  }

  /** One `doWork` call: at most one adjustment, and always a successful result. */
  function DoWork(currentRms: Int32, s: MusicStream): (r: WorkOutcome)
    ensures r.result == Success
    ensures s.InRange() ==> r.stream.InRange()
    ensures r.stream.minVolume == s.minVolume && r.stream.maxVolume == s.maxVolume
    ensures -1 <= r.stream.volume - s.volume <= 1
    ensures r.stream.volume > s.volume <==> Decide(currentRms, s) == Raise
    ensures r.stream.volume < s.volume <==> Decide(currentRms, s) == Lower
  {
    var a := Decide(currentRms, s);
    WorkOutcome(Apply(s, a), Success)
  }

  /** The stream after the worker has run once per reading. */
  function Run(readings: seq<Int32>, s: MusicStream): MusicStream
    decreases |readings|
  {
    if |readings| == 0 then s else Run(readings[1..], DoWork(readings[0], s).stream)
  }

  /** However often the worker is run, on any readings, a volume that starts in range stays in range. */
  lemma {:induction false} RunStaysInRange(readings: seq<Int32>, s: MusicStream)
    requires s.InRange()
    ensures Run(readings, s).InRange()
    ensures Run(readings, s).minVolume == s.minVolume && Run(readings, s).maxVolume == s.maxVolume
    decreases |readings|
  {
    if |readings| > 0 {
      RunStaysInRange(readings[1..], DoWork(readings[0], s).stream);
    }
  }

  /**
   * Repeated runs on documented readings only ever raise: starting in range, the volume
   * climbs one step per run until it reaches the maximum and stays there.
   */
  lemma {:induction false} RunClimbsToMax(readings: seq<Int32>, s: MusicStream)
    requires s.InRange()
    requires forall i :: 0 <= i < |readings| ==> Documented(readings[i])
    ensures Run(readings, s).InRange()
    ensures Run(readings, s).volume == if s.volume + |readings| < s.maxVolume then s.volume + |readings| else s.maxVolume
    decreases |readings|
  {
    if |readings| > 0 {
      var t := DoWork(readings[0], s).stream;
      assert t.volume == if s.volume < s.maxVolume then s.volume + 1 else s.volume;
      RunClimbsToMax(readings[1..], t);
    }
  }

}

=== FILE: decimal.dfy ===
/**
 * Kotlin's `Int.toString()`: an optional minus sign followed by the decimal digits,
 * without leading zeros. `Parse` is its inverse and is used only to state that the
 * rendering loses nothing.
 */
module Decimal {

  import opened Wrappers

  predicate IsDigit(c: char) {
    '0' <= c <= '9'
  }

  predicate AllDigits(s: string) {
    forall i :: 0 <= i < |s| ==> IsDigit(s[i])
  }

  /** Digits without a leading zero, unless the number is zero itself. */
  predicate CanonicalNat(s: string) {
    |s| >= 1 && AllDigits(s) && (|s| > 1 ==> s[0] != '0')
  }

  /** The form `Int.toString()` produces: canonical digits, or a minus sign and canonical digits other than "0". */
  predicate Canonical(s: string) {
    CanonicalNat(s) || (|s| >= 2 && s[0] == '-' && CanonicalNat(s[1..]) && s[1] != '0')
  }

  function DigitChar(d: nat): (c: char)
    requires d < 10
    ensures IsDigit(c)
  {
    ('0' as int + d) as char
  }

  function DigitValue(c: char): (d: nat)
    requires IsDigit(c)
    ensures d < 10
    ensures DigitChar(d) == c
  {
    c as int - '0' as int
  }

  /** The decimal digits of `n`. */
  function NatToString(n: nat): (s: string)
    ensures |s| >= 1
    ensures AllDigits(s)
    ensures CanonicalNat(s)
    ensures s[0] == '0' <==> n == 0
    decreases n
  {
    if n < 10 then [DigitChar(n)] else NatToString(n / 10) + [DigitChar(n % 10)]
  }

  /** `n.toString()`. */
  function IntToString(n: int): (s: string)
    ensures |s| >= 1
    ensures n < 0 <==> s[0] == '-'
    ensures n >= 0 ==> AllDigits(s)
    ensures n < 0 ==> |s| >= 2 && AllDigits(s[1..])
    ensures Canonical(s)
  {
    if n < 0 then "-" + NatToString(-n) else NatToString(n)
  }

  /** The value of a non-empty string of digits. */
  function ParseNat(s: string): nat
    requires |s| >= 1 && AllDigits(s)
    decreases |s|
  {
    if |s| == 1 then DigitValue(s[0])
    else ParseNat(s[..|s| - 1]) * 10 + DigitValue(s[|s| - 1])
  }

  /** The integer a string of digits with an optional leading minus denotes, if any. */
  function Parse(s: string): (r: Option<int>)
    ensures r.Some? ==> |s| >= 1
    ensures r.Some? && r.value < 0 ==> s[0] == '-'
    ensures r.Some? && s[0] == '-' ==> r.value <= 0
  {
    if |s| >= 1 && AllDigits(s) then Some(ParseNat(s))
    else if |s| >= 2 && s[0] == '-' && AllDigits(s[1..]) then Some(0 - ParseNat(s[1..]) as int)
    else None
  }

  lemma {:induction false} ParseNatRoundTrip(n: nat)
    ensures ParseNat(NatToString(n)) == n
    decreases n
  {
    if n >= 10 {
      var s := NatToString(n);
      assert s[..|s| - 1] == NatToString(n / 10);
      ParseNatRoundTrip(n / 10);
    }
  }

  /** Rendering and parsing back gives the original integer. */
  lemma RoundTrip(n: int)
    ensures Parse(IntToString(n)) == Some(n)
  {
    if n < 0 {
      ParseNatRoundTrip(-n);
      assert IntToString(n)[1..] == NatToString(-n);
    } else {
      ParseNatRoundTrip(n);
    }
  }

  /** Different integers are rendered differently. */
  lemma Injective(a: int, b: int)
    requires IntToString(a) == IntToString(b)
    ensures a == b
  {
    RoundTrip(a);
    RoundTrip(b);
  }

}

=== FILE: loudness.dfy ===
/**
 * Loudness readings as the visualizer reports them: a Kotlin `Int` in millibels.
 * Kotlin `Int` arithmetic wraps around at 32 bits, and two of the normalizers add
 * or subtract a margin of 1000 from a reading, so that wrap-around is written out here.
 */
module Loudness {

  const MinInt32: int := -0x8000_0000
  const MaxInt32: int := 0x7fff_ffff
  const TwoTo32: int := 0x1_0000_0000

  /** A Kotlin `Int`. */
  type Int32 = x: int | MinInt32 <= x <= MaxInt32

  /** The reading the visualizer reports for silence, e.g. between two songs. */
  const SilenceFloor: int := -9600

  /** The margin the worker variants put around a reading. */
  const Margin: Int32 := 1000

  /** Reduces a sum or difference of two Kotlin `Int`s to the `Int` Kotlin computes. */
  function Wrap(x: int): (r: Int32)
    requires MinInt32 + MinInt32 <= x <= MaxInt32 + MaxInt32 + 1
    ensures (r - x) % TwoTo32 == 0
    ensures MinInt32 <= x <= MaxInt32 ==> r == x
  {
    if x > MaxInt32 then x - TwoTo32
    else if x < MinInt32 then x + TwoTo32
    else x
  }

  /** Kotlin's `a + b` on `Int`. */
  function Plus(a: Int32, b: Int32): (r: Int32)
    ensures (r - (a + b)) % TwoTo32 == 0
    ensures MinInt32 <= a + b <= MaxInt32 ==> r == a + b
  {
    Wrap(a + b)
  }

  /** Kotlin's `a - b` on `Int`. */
  function Minus(a: Int32, b: Int32): (r: Int32)
    ensures (r - (a - b)) % TwoTo32 == 0
    ensures MinInt32 <= a - b <= MaxInt32 ==> r == a - b
  {
    Wrap(a - b)
  }

  /** `x + Margin` and `x - Margin` both stay inside `Int`. */
  predicate Offsettable(x: int) {
    MinInt32 + Margin <= x <= MaxInt32 - Margin
  }

  /** The range the visualizer documents for its readings. */
  predicate Documented(x: int) {
    SilenceFloor <= x <= 0
  }

  /** Every documented reading can be offset by the margin without wrapping. */
  lemma DocumentedIsOffsettable(x: int)
    requires Documented(x)
    ensures Offsettable(x)
  {
  }

  /** Adding and then removing the margin is the identity exactly when nothing wraps. */
  lemma MarginRoundTrip(x: Int32)
    ensures Offsettable(x) ==> Minus(Plus(x, Margin), Margin) == x
    ensures Offsettable(x) ==> Plus(x, Margin) == x + Margin && Minus(x, Margin) == x - Margin
    ensures x > MaxInt32 - Margin ==> Plus(x, Margin) < x
    ensures x < MinInt32 + Margin ==> Minus(x, Margin) > x
  {
  }

}

=== FILE: main_activity.dfy ===
/**
 * The prototype screen of `MainActivity`: while recording, each composition takes one
 * peak/RMS measurement, raises the music volume when the RMS is below -7000, and shows
 * the outcome; a button toggles recording.
 */
module RecordScreen {

  import opened Loudness
  import opened Volume
  import opened Wrappers
  import Decimal
  import NormalizerService
  import TwoSampleWorker
  import SelfComparingWorker

  /** `MeasurementPeakRmsStatus`. */
  datatype MeasurementStatus = Success(peak: Int32, rms: Int32) | NotRecording | Error

  /** What `Visualizer.getMeasurementPeakRms` returns (`code`) and fills in (`peak`, `rms`). */
  datatype PeakRms = PeakRms(code: int, peak: Int32, rms: Int32)

  /** `Visualizer.SUCCESS`. */
  const VisualizerSuccess: int := 0

  /** Readings below this raise the volume. */
  const RaiseBelow: int := -7000

  /** The outcome of one composition: the new status and the adjustment it issued. */
  datatype Composition = Composition(status: MeasurementStatus, action: Action)

  /**
   * One composition. `managerAvailable` says whether the context's audio service is an
   * `AudioManager`; the measurement is consulted only while recording.
   */
  function Compose(isRecording: bool, m: PeakRms, managerAvailable: bool): (r: Composition)
    ensures r.action != Lower
    ensures r.action == Raise <==>
      isRecording && m.code == VisualizerSuccess && m.rms < RaiseBelow && managerAvailable
    ensures r.status == NotRecording <==> !isRecording
    ensures r.status == Error <==> isRecording && m.code != VisualizerSuccess
    ensures r.status.Success? ==> r.status.peak == m.peak && r.status.rms == m.rms
  {
    if isRecording then
      if m.code == VisualizerSuccess then
        Composition(Success(m.peak, m.rms), if m.rms < RaiseBelow && managerAvailable then Raise else Hold)
      else
        Composition(Error, Hold)
    else
      Composition(NotRecording, Hold)
  }

  /** When not recording, nothing is measured: the outcome is the same whatever the visualizer would report. */
  lemma NotRecordingIgnoresMeasurement(m1: PeakRms, m2: PeakRms, a1: bool, a2: bool)
    ensures Compose(false, m1, a1) == Compose(false, m2, a2) == Composition(NotRecording, Hold)
  {
  }

  /**
   * The raise consults neither the current nor the maximum volume: at the maximum volume
   * the screen still issues a raise, where the service and the self-comparing worker
   * hold and the two-sample worker does not raise.
   */
  lemma RaiseIgnoresMaximum(s: MusicStream, m: PeakRms, minRms: Int32, previousRms: Int32)
    requires s.volume == s.maxVolume
    requires m.code == VisualizerSuccess && m.rms < RaiseBelow
    ensures Compose(true, m, true).action == Raise
    ensures NormalizerService.Decide(true, m.rms, minRms, s) == Hold
    ensures TwoSampleWorker.Decide(previousRms, m.rms, s) != Raise
    ensures SelfComparingWorker.Decide(m.rms, s) == Hold
  {
  }

  /**
   * On the same quiet reading at the maximum volume, where the screen raises, the
   * two-sample worker can lower: it compares with the previous reading, not a threshold.
   */
  lemma TwoSampleLowersWhereScreenRaises()
    ensures Compose(true, PeakRms(VisualizerSuccess, 0, -7500), true).action == Raise
    ensures TwoSampleWorker.Decide(-9000, -7500, MusicStream(10, 0, 10)) == Lower
  {
  }

  /** The text shown after "The peak is:". */
  function PeakText(status: MeasurementStatus): (r: string)
    ensures status == NotRecording ==> r == "Not recording"
    ensures status == Error ==> r == "Error, try again."
    ensures status.Success? ==> Decimal.Parse(r) == Some(status.peak as int)
    ensures status.Success? ==> Decimal.Canonical(r)
  {
    match status
    case NotRecording => "Not recording"
    case Error => "Error, try again."
    case Success(peak, _) => Decimal.RoundTrip(peak); Decimal.IntToString(peak)
  }

  /** The text shown after "The rms is:". */
  function RmsText(status: MeasurementStatus): (r: string)
    ensures status == NotRecording ==> r == "Not recording"
    ensures status == Error ==> r == "Error, try again."
    ensures status.Success? ==> Decimal.Parse(r) == Some(status.rms as int)
    ensures status.Success? ==> Decimal.Canonical(r)
  {
    match status
    case NotRecording => "Not recording"
    case Error => "Error, try again."
    case Success(_, rms) => Decimal.RoundTrip(rms); Decimal.IntToString(rms)
  }

  /** The two texts together tell which status is shown, including its peak and RMS. */
  lemma TextsIdentifyStatus(a: MeasurementStatus, b: MeasurementStatus)
    requires PeakText(a) == PeakText(b) && RmsText(a) == RmsText(b)
    ensures a == b
  {
    if a.Success? && b.Success? {
      Decimal.Injective(a.peak, b.peak);
      Decimal.Injective(a.rms, b.rms);
    }
  }

  /** The label of the record button. */
  function RecordButtonText(isRecording: bool): (r: string)
    ensures r == "Stop recording" <==> isRecording
    ensures !isRecording ==> r == "Record"
  {
    if isRecording then "Stop recording" else "Record"
  }

  /** Pressing the record button. */
  function ToggleRecording(isRecording: bool): (r: bool)
    ensures r != isRecording
    ensures RecordButtonText(r) != RecordButtonText(isRecording)
  {
    !isRecording
  }

}

=== FILE: normalizer_service.dfy ===
/**
 * The loop of `AudioNormalizerService.ServiceHandler.handleMessage`: while an audio
 * manager is present, read the RMS loudness and raise, lower or keep the music volume.
 * `MIN_RMS` is not defined in the repository, so it is a parameter here.
 */
module NormalizerService {

  import opened Loudness
  import opened Volume
  import opened Wrappers

  /** Readings above this are loud enough for the lower branch. */
  const LoudAbove: int := -7000

  /** The decision of one loop iteration. */
  function Decide(managerPresent: bool, rms: Int32, minRms: Int32, s: MusicStream): (r: Action)
    ensures Guarded(r, s)
    ensures r == Raise <==> managerPresent && SilenceFloor < rms < minRms && s.volume < s.maxVolume
    ensures r == Lower <==> managerPresent && minRms <= rms && LoudAbove < rms && s.volume > s.minVolume + 1
    ensures !managerPresent ==> r == Hold
    ensures rms <= SilenceFloor ==> r == Hold
    ensures minRms <= rms <= LoudAbove ==> r == Hold
  {
    if !managerPresent then Hold
    else if (rms < minRms && rms > SilenceFloor) || rms > LoudAbove then
      if rms < minRms then
        if s.volume < s.maxVolume then Raise else Hold
      else
        if s.volume > s.minVolume + 1 then Lower else Hold
    else Hold
  }

  /** The stream after the loop has consumed `readings`, one per iteration. */
  function Run(managerPresent: bool, readings: seq<Int32>, minRms: Int32, s: MusicStream): MusicStream
    decreases |readings|
  {
    if |readings| == 0 then s
    else Run(managerPresent, readings[1..], minRms, Apply(s, Decide(managerPresent, readings[0], minRms, s)))
  }

  /**
   * Over any number of iterations the volume stays within the stream's bounds, and
   * once it is above the minimum the lower branch never takes it back to the minimum.
   */
  lemma {:induction false} RunStaysInRange(managerPresent: bool, readings: seq<Int32>, minRms: Int32, s: MusicStream)
    requires s.InRange()
    ensures Run(managerPresent, readings, minRms, s).InRange()
    ensures s.volume >= s.minVolume + 1 ==> Run(managerPresent, readings, minRms, s).volume >= s.minVolume + 1
    ensures Run(managerPresent, readings, minRms, s).minVolume == s.minVolume
    ensures Run(managerPresent, readings, minRms, s).maxVolume == s.maxVolume
    decreases |readings|
  {
    if |readings| > 0 {
      var a := Decide(managerPresent, readings[0], minRms, s);
      GuardedStaysInRange(s, a);
      RunStaysInRange(managerPresent, readings[1..], minRms, Apply(s, a));
    }
  }

  /**
   * The loop when something else may also set the volume between iterations (the volume
   * keys, another app): each step carries the volume found at that iteration, if it was
   * changed, and the reading.
   */
  function RunShared(managerPresent: bool, steps: seq<(Option<int>, Int32)>, minRms: Int32, s: MusicStream): MusicStream
    decreases |steps|
  {
    if |steps| == 0 then s
    else
      var found := match steps[0].0 case Some(v) => s.(volume := v) case None => s;
      RunShared(managerPresent, steps[1..], minRms, Apply(found, Decide(managerPresent, steps[0].1, minRms, found)))
  }

  /** Outside changes that stay within the stream's bounds cannot make the loop leave them. */
  lemma {:induction false} RunSharedStaysInRange(managerPresent: bool, steps: seq<(Option<int>, Int32)>, minRms: Int32, s: MusicStream)
    requires s.InRange()
    requires forall i :: 0 <= i < |steps| && steps[i].0.Some? ==> s.minVolume <= steps[i].0.value <= s.maxVolume
    ensures RunShared(managerPresent, steps, minRms, s).InRange()
    ensures RunShared(managerPresent, steps, minRms, s).minVolume == s.minVolume
    ensures RunShared(managerPresent, steps, minRms, s).maxVolume == s.maxVolume
    decreases |steps|
  {
    if |steps| > 0 {
      var found := match steps[0].0 case Some(v) => s.(volume := v) case None => s;
      var a := Decide(managerPresent, steps[0].1, minRms, found);
      GuardedStaysInRange(found, a);
      forall i | 0 <= i < |steps[1..]| && steps[1..][i].0.Some?
        ensures found.minVolume <= steps[1..][i].0.value <= found.maxVolume
      {
        assert steps[1..][i] == steps[i + 1];
      }
      RunSharedStaysInRange(managerPresent, steps[1..], minRms, Apply(found, a));
    }
  }

  /** Without an audio manager the loop never touches the volume. */
  lemma {:induction false} RunWithoutManagerHolds(readings: seq<Int32>, minRms: Int32, s: MusicStream)
    ensures Run(false, readings, minRms, s) == s
    decreases |readings|
  {
    if |readings| > 0 {
      RunWithoutManagerHolds(readings[1..], minRms, s);
    }
  }

  /** Readings at the silence floor never move the volume, however many there are. */
  lemma {:induction false} SilenceKeepsVolume(managerPresent: bool, readings: seq<Int32>, minRms: Int32, s: MusicStream)
    requires forall i :: 0 <= i < |readings| ==> readings[i] <= SilenceFloor
    ensures Run(managerPresent, readings, minRms, s) == s
    decreases |readings|
  {
    if |readings| > 0 {
      SilenceKeepsVolume(managerPresent, readings[1..], minRms, s);
    }
  }

  /**
   * The loop itself: one decision and at most one adjustment per reading. Returns the
   * final stream and how many adjustments were issued.
   */
  method Loop(managerPresent: bool, readings: seq<Int32>, minRms: Int32, s: MusicStream)
    returns (t: MusicStream, adjustments: nat)
    requires s.InRange()
    ensures t == Run(managerPresent, readings, minRms, s)
    ensures t.InRange()
    ensures adjustments <= |readings|
    ensures s.volume - adjustments <= t.volume <= s.volume + adjustments
    ensures !managerPresent ==> adjustments == 0
  {
    t := s;
    adjustments := 0;
    var i := 0;
    while i < |readings|
      invariant 0 <= i <= |readings|
      invariant Run(managerPresent, readings[i..], minRms, t) == Run(managerPresent, readings, minRms, s)
      invariant t.InRange()
      invariant t.minVolume == s.minVolume && t.maxVolume == s.maxVolume
      invariant adjustments <= i
      invariant s.volume - adjustments <= t.volume <= s.volume + adjustments
      invariant !managerPresent ==> adjustments == 0
    {
      var a := Decide(managerPresent, readings[i], minRms, t);
      GuardedStaysInRange(t, a);
      assert readings[i..][1..] == readings[i + 1..];
      if a != Hold {
        adjustments := adjustments + 1;
      }
      t := Apply(t, a);
      i := i + 1;
    }
  }

}

=== FILE: normalizer_view_model.dfy ===
/**
 * `NormalizerViewModel`: the UI state derived from the normalizer work's `WorkInfo`,
 * and the audio levels the user can pick.
 */
module NormalizerViewModel {

  import opened Work
  import opened Wrappers

  /** `NormalizerUiState`. */
  datatype UiState = Default | Normalizing | Error

  /** The output data the view model treats as an audio-level error: `workDataOf("ERROR" to "AUDIO_LEVEL_ERROR")`. */
  const AudioLevelErrorData: map<string, string> := map["ERROR" := "AUDIO_LEVEL_ERROR"]

  /** The UI state for one `WorkInfo`. */
  function UiStateOf(info: WorkInfo): (r: UiState)
    ensures r == Normalizing <==> info.state == Running
    ensures r == Error <==> info.state == Failed && info.outputData == AudioLevelErrorData
    ensures r == Default <==>
      info.state.Enqueued? || info.state.Succeeded? || info.state.Blocked?
      || info.state.Cancelled? || (info.state.Failed? && info.outputData != AudioLevelErrorData)
  {
    if info.state == Running then Normalizing
    else if info.state == Failed && info.outputData == AudioLevelErrorData then Error
    else Default
  }

  /**
   * The value `normalizerUiState` holds once the work-info flow has emitted `infos`:
   * the initial value `Default` until something is emitted, then the state of the latest.
   */
  function UiStateAfter(infos: seq<WorkInfo>): (r: UiState)
    ensures |infos| == 0 ==> r == Default
    ensures r == Normalizing <==> |infos| > 0 && infos[|infos| - 1].state == Running
    ensures r == Error <==>
      |infos| > 0 && infos[|infos| - 1].state == Failed && infos[|infos| - 1].outputData == AudioLevelErrorData
  {
    if |infos| == 0 then Default else UiStateOf(infos[|infos| - 1])
  }

  /** Only a running, or a failed, work info changes the state away from `Default`. */
  lemma QuietStatesShowDefault(infos: seq<WorkInfo>)
    requires forall i :: 0 <= i < |infos| ==> infos[i].state != Running && infos[i].state != Failed
    ensures UiStateAfter(infos) == Default
  {
  }

  /** `AudioLevel`. */
  datatype AudioLevel = Low | Medium | High | Dynamic {

    /** `AudioLevel.textDescription`. */
    function TextDescription(): (r: string)
      ensures r in {"Low", "Medium", "High", "Dynamic"}
    {
      match this
      case Low => "Low"
      case Medium => "Medium"
      case High => "High"
      case Dynamic => "Dynamic"
    }
  }

  /** The level a text description names, if any. */
  function LevelOf(description: string): (r: Option<AudioLevel>)
    ensures r.Some? ==> r.value.TextDescription() == description
  {
    if description == "Low" then Some(Low)
    else if description == "Medium" then Some(Medium)
    else if description == "High" then Some(High)
    else if description == "Dynamic" then Some(Dynamic)
    else None
  }

  /** The argument `normalizeAudio` hands to the repository for the chosen level. */
  function NormalizeAudioArgument(level: AudioLevel): (r: string)
    ensures LevelOf(r) == Some(level)
  {
    level.TextDescription()
  }

  /** The four descriptions are pairwise distinct, so the description identifies the level. */
  lemma DescriptionsDistinct(a: AudioLevel, b: AudioLevel)
    requires a.TextDescription() == b.TextDescription()
    ensures a == b
  {
    assert LevelOf(a.TextDescription()) == Some(a);
  }

}

=== FILE: normalizer_worker.dfy ===
/**
 * `workers/NormalizerWorker.doWork`: take a reading, wait, take a second reading and
 * compare the second against the first with a margin of 1000 either side.
 */
module TwoSampleWorker {

  import opened Loudness
  import opened Volume
  import opened Work

  /** The decision from the previous and the current reading. */
  function Decide(previousRms: Int32, currentRms: Int32, s: MusicStream): (r: Action)
    ensures Guarded(r, s)
    ensures Offsettable(previousRms) ==>
      (r == Raise <==>
        currentRms < previousRms + Margin
        && (currentRms > SilenceFloor || currentRms > previousRms - Margin)
        && s.volume < s.maxVolume)
    ensures Offsettable(previousRms) ==>
      (r == Lower <==> currentRms >= previousRms + Margin && s.volume > s.minVolume + 1)
    ensures Offsettable(previousRms) && currentRms <= SilenceFloor && currentRms <= previousRms - Margin ==>
      r == Hold
    // the floor guard is bypassed: a reading within the margin of the previous one
    // raises even at the silence floor
    ensures (Offsettable(previousRms) && previousRms - Margin < currentRms < previousRms + Margin
      && s.volume < s.maxVolume) ==> r == Raise
  {
    var above := Plus(previousRms, Margin);
    var below := Minus(previousRms, Margin);
    if (currentRms < above && currentRms > SilenceFloor) || currentRms > below then
      if currentRms < above then
        if s.volume < s.maxVolume then Raise else Hold
      else
        if s.volume > s.minVolume + 1 then Lower else Hold
    else Hold
  }

  /** One `doWork` call: at most one adjustment, and always a successful result. */
  function DoWork(previousRms: Int32, currentRms: Int32, s: MusicStream): (r: WorkOutcome)
    ensures r.result == Success
    ensures s.InRange() ==> r.stream.InRange()
    ensures r.stream.minVolume == s.minVolume && r.stream.maxVolume == s.maxVolume
    ensures -1 <= r.stream.volume - s.volume <= 1
    ensures r.stream.volume > s.volume <==> Decide(previousRms, currentRms, s) == Raise
    ensures r.stream.volume < s.volume <==> Decide(previousRms, currentRms, s) == Lower
  {
    var a := Decide(previousRms, currentRms, s);
    WorkOutcome(Apply(s, a), Success)
  }

  /**
   * The result code of the measurement is not checked: when the second measurement fails,
   * `mRms` keeps the first value, and two equal readings raise the volume whenever it can,
   * however loud the audio is.
   */
  lemma RepeatedReadingRaises(x: Int32, s: MusicStream)
    requires Offsettable(x)
    requires s.volume < s.maxVolume
    ensures Decide(x, x, s) == Raise
  {
  }

  /** A silence-floor reading after a floor reading raises the volume whenever it can. */
  lemma FloorAfterFloorRaises(s: MusicStream)
    requires s.volume < s.maxVolume
    ensures Decide(SilenceFloor, SilenceFloor, s) == Raise
  {
  }

  /** The stream after the worker has been run once per pair of (previous, current) readings. */
  function Run(samples: seq<(Int32, Int32)>, s: MusicStream): MusicStream
    decreases |samples|
  {
    if |samples| == 0 then s else Run(samples[1..], DoWork(samples[0].0, samples[0].1, s).stream)
  }

  /** However often the worker is run, a volume that starts in range stays in range. */
  lemma {:induction false} RunStaysInRange(samples: seq<(Int32, Int32)>, s: MusicStream)
    requires s.InRange()
    ensures Run(samples, s).InRange()
    ensures Run(samples, s).minVolume == s.minVolume && Run(samples, s).maxVolume == s.maxVolume
    decreases |samples|
  {
    if |samples| > 0 {
      RunStaysInRange(samples[1..], DoWork(samples[0].0, samples[0].1, s).stream);
    }
  }

}

=== FILE: volume.dfy ===
/**
 * The music stream the normalizers act on, and the one-step adjustment they issue.
 * `adjustStreamVolume(STREAM_MUSIC, ADJUST_RAISE | ADJUST_LOWER, …)` is platform code;
 * it is modelled under the assumption that it moves the volume index by exactly one.
 */
module Volume {

  /** What one tick of a normalizer asks of the music stream. */
  datatype Action = Raise | Lower | Hold

  /** The music stream as the audio manager reports it: current index and its bounds. */
  datatype MusicStream = MusicStream(volume: int, minVolume: int, maxVolume: int) {

    predicate InRange() {
      minVolume <= volume <= maxVolume
    }
  }

  /**
   * The guards the normalizers place around their adjustments: raise only below the
   * maximum, lower only above one more than the minimum.
   */
  predicate Guarded(a: Action, s: MusicStream) {
    match a
    case Raise => s.volume < s.maxVolume
    case Lower => s.volume > s.minVolume + 1
    case Hold => true
  }

  /** The stream after one adjustment call (none for `Hold`). */
  function Apply(s: MusicStream, a: Action): (r: MusicStream)
    ensures r.minVolume == s.minVolume && r.maxVolume == s.maxVolume
    ensures r.volume > s.volume <==> a == Raise
    ensures r.volume < s.volume <==> a == Lower
    ensures -1 <= r.volume - s.volume <= 1
  {
    match a
    case Raise => s.(volume := s.volume + 1)
    case Lower => s.(volume := s.volume - 1)
    case Hold => s
  }

  /** A raise undoes a lower and vice versa. */
  lemma RaiseLowerInverse(s: MusicStream)
    ensures Apply(Apply(s, Raise), Lower) == s
    ensures Apply(Apply(s, Lower), Raise) == s
  {
  }

  /**
   * A guarded adjustment keeps the stream in range, and a lower never takes it
   * below one more than the minimum.
   */
  lemma GuardedStaysInRange(s: MusicStream, a: Action)
    requires s.InRange()
    requires Guarded(a, s)
    ensures Apply(s, a).InRange()
    ensures a == Lower ==> Apply(s, a).volume >= s.minVolume + 1
    ensures s.volume >= s.minVolume + 1 ==> Apply(s, a).volume >= s.minVolume + 1
  {
  }

}

=== FILE: work.dfy ===
/** The androidx.work types the workers and the view model exchange. */
module Work {

  import opened Volume

  /** `ListenableWorker.Result`. */
  datatype WorkResult = Success | Failure | Retry

  /** `WorkInfo.State`. */
  datatype WorkState = Enqueued | Running | Succeeded | Failed | Blocked | Cancelled

  /** `WorkInfo`, reduced to its state and its output `Data` (string keys to string values). */
  datatype WorkInfo = WorkInfo(state: WorkState, outputData: map<string, string>)

  /** What one `doWork` call leaves behind: the music stream and the result it returns. */
  datatype WorkOutcome = WorkOutcome(stream: MusicStream, result: WorkResult)

}

=== FILE: wrappers.dfy ===
/** The optional value used where a lookup or a parse can fail. */
module Wrappers {

  datatype Option<+T> = None | Some(value: T)

}
